=== FILE: README.md ===
# Aletheia AI news dashboard — verified model of its decision rules

Aletheia AI is a one-file Streamlit dashboard (`main.py`). It fetches Google News RSS
entries for a topic and sends a selected article to a hosted Gemini model. It pulls a
JSON object out of the model's reply, keeps the latest result together with its article link, and shows
the category, sentiment, credibility score and drafts. Most of the file is CSS, layout
and calls into libraries. This project models the small pure rules inside that code
and proves what they guarantee:

- **Feed** (`feed.dfy`): how a topic becomes the search URL. `topic.replace(" ", "%20")`
  goes between a fixed prefix and a fixed suffix, and the parsed entries are cut to at
  most six.
- **Extraction** (`extraction.dfy`): `re.search(r'\{.*\}', content, re.DOTALL)` and the
  branch on its result. The search is modelled three ways, all proved to agree:
  - a declarative leftmost-greedy match predicate;
  - a first-`{`/last-`}` function;
  - a method that searches the way a backtracking regex engine does.

  `json.loads` is an uninterpreted `Parser` that may fail.
- **Analysis** (`analysis.dfy`): `analyze_and_generate`. It has the empty-key guard,
  one model call whose reply (text or a raised error) is an input, and the extraction.
- **Display** (`display.dfy`): the `dict.get` defaults, the `if data:` gate and the
  green/red/yellow sentiment colour.
- **Dashboard** (`dashboard.dfy`): the session fields `articles`, `active_article`,
  `current_analysis` and `current_url`. It covers the Fetch News and Analyze buttons
  and the editor pass that decides whether to analyse again.

`wrappers.dfy` holds `Option`. `json.dfy` holds the JSON value type and the `Parser`
type.

Behaviours of `main.py` worth knowing, all of which the model keeps:

- A failure inside the `try` (main.py:145-171), or a missing key, is cached too.
  `analyze_and_generate` returns `None` there, and `main.py:240` still stores that
  `None` under `current_analysis`. The key is then present, so reselecting the same
  article does not retry the analysis (`Dashboard.ReselectSameArticle`).
- A raise while building the client or the prompt template (main.py:107-111, 140-143)
  happens before the `try`. It escapes `analyze_and_generate` and ends the rerun, so
  nothing is stored or shown, and the next rerun analyses again
  (`Dashboard.EscapedPassIsRetried`).
- The cache has one slot: `current_analysis` and `current_url` are overwritten by each
  analysis (main.py:240-241). Going from article A to B and back to A analyses A again
  (`Dashboard.ReturningToEarlierArticleReanalyses`).
- Fetch News (`main.py:200-202`) only replaces `articles`. It does not clear the active
  article or its cached analysis (`Dashboard.RefetchKeepsEditor`).
- Extraction errors are not distinguished in the return value: "no JSON found", "malformed
  JSON" and transport errors caught by the `try` all return `None`. The model keeps them apart in
  `Analysis.Outcome` and maps them all to `None` with `Analysis.ResultOf`.
- `if data:` is false for an empty dict, so a reply of `{}` shows nothing
  (`Display.Present`).

## Model

| member | source | states |
|---|---|---|
| Feed.FormatTopic | main.py:98 | the formatted topic never contains a space |
| Feed.FormatIdentity | main.py:98 | a topic with no space is returned unchanged |
| Feed.FormatLength | main.py:98 | each space adds exactly two characters: length is `|topic| + 2 * (number of spaces)` |
| Feed.FormatConcat | main.py:98 | the replacement works character by character: formatting distributes over concatenation |
| Feed.FormatPositions | main.py:98 | every character keeps its order; a space appears as `%20` and any other character as itself, at the offset the earlier spaces determine |
| Feed.UnformatFormat | main.py:98 | for a topic without `%`, decoding `%20` back to a space recovers the topic, so nothing else is altered |
| Feed.FormatNotInjective | main.py:98 | only spaces are rewritten, so two different topics (`" "` and `"%20"`) give the same query |
| Feed.QueryUrl | main.py:99 | the URL is the fixed `https://news.google.com/rss/search?q=` prefix, the formatted topic, then `&hl=en-US&gl=US&ceid=US:en`, and holds no space |
| Feed.QueryUrlRoundTrip | main.py:98-99 | for a `%`-free topic, the text between the fixed prefix and suffix, with `%20` decoded, is the topic again |
| Feed.ReservedCharactersUnescaped | main.py:98-99 | characters other than the space go into the URL unescaped: `AT&T` and `C#` appear as they are after `?q=` |
| Feed.FetchFeed | main.py:97-100 | at most six entries, an in-order prefix of the parsed entries for the topic's URL, and all of them when there are six or fewer |
| Extraction.BraceSpan | main.py:157 | the first-`{`-to-last-`}` span is exactly the leftmost, longest match of `\{.*\}` with DOTALL, and there is none exactly when the pattern has no match |
| Extraction.RegexSearch | main.py:157 | the engine's left-to-right search with greedy backtracking finds the leftmost-longest match, or reports none; its answer equals the first-`{`/last-`}` span |
| Extraction.JsonCandidate | main.py:157-160 | `match.group(0)` exists exactly when the pattern matches, and then begins with `{`, ends with `}` and has at least two characters |
| Extraction.CandidateDecomposition | main.py:157-160 | the raw text is prose with no `{`, then the candidate, then prose with no `}` |
| Extraction.CandidateIsolated | main.py:157-160 | conversely, any `{...}` text between a `{`-free prefix and a `}`-free suffix is exactly the candidate, whatever braces or newlines it holds |
| Extraction.ChattyReplyCandidate | main.py:156-160 | in `Sure! {...} Hope that helps.` the candidate is exactly the embedded object text |
| Extraction.ProseBraceWidensCandidate | main.py:156-157 | a `{` in the prose before the object moves the candidate's start to that brace |
| Extraction.ExtractJson | main.py:157-166 | "no JSON found" exactly when the pattern has no match; otherwise the candidate is decoded, and a decoder failure is reported as malformed |
| Extraction.NoMatchSkipsParser | main.py:159-166 | with no `{` in the reply, or no `}` after its first `{`, the result is the no-JSON branch whichever decoder is given, so the decoder is not consulted |
| Extraction.WrappedObjectDecoded | main.py:157-161 | a decodable object wrapped in chatter decodes from exactly its own text |
| Analysis.Analyze | main.py:102-171 | the outcome is "missing key" exactly when the key is empty; an escaping raise exactly when the key is set and building the client or template raises; a caught invocation failure exactly when the key is set, building succeeds and the call raises; and otherwise the extraction of the reply |
| Analysis.ResultOf | main.py:159-171 | when the function returns, it returns an object exactly when extraction decoded one, and then it is that decoded object; every failure inside the `try` returns `None` |
| Analysis.EmptyKeyCallsNothing | main.py:103-111 | with an empty key the outcome does not depend on the model's reply or the decoder, and is `None` |
| Analysis.NoBraceYieldsNone | main.py:157-166 | a reply without `{` gives `None` whichever decoder is given |
| Analysis.SuccessCharacterized | main.py:145-171 | when the function returns, the analysis yields an object if and only if the key is set, the model answers, the reply has a `{...}` span and that span decodes; when the first three hold, the result is exactly the decoder's answer on that span |
| Display.SentimentColour | main.py:254-255 | green for exactly `"Positive"`, red for exactly `"Negative"`, yellow for every other value |
| Display.Present | main.py:245-277 | nothing is shown for a missing or empty result; otherwise each of the six fields shows its stored value or its default (`N/A`, `Neutral`, `0`, `No data`, `""`, `""`), and the badge colour is `#00ff00`, `#ff0000` or `#ffff00` by the shown sentiment |
| Display.MissingSentimentIsNeutralYellow | main.py:254-256 | a result without `sentiment` shows `Neutral` in yellow (`#ffff00`) |
| Display.AllDefaults | main.py:251-277 | a non-empty result with none of the six fields shows all defaults |
| Dashboard.FetchNews | main.py:200-202 | Fetch News stores exactly `fetch_feed(topic)`: the first min(n, 6) parsed entries in order; it leaves the active article and the cached analysis unchanged |
| Dashboard.SelectArticle | main.py:226-228 | Analyze makes the chosen card's entry active and changes nothing else |
| Dashboard.EditorPass | main.py:231-245 | analysis runs exactly when articles and an active article exist and no result is cached for its link; unless it escapes, afterwards the cached link is that article's link, the result (even `None`) is stored, and the shown panel is that of the stored result; an escaping raise leaves the session unchanged and shows nothing |
| Dashboard.SecondPassUsesCache | main.py:238-243 | after a pass that did not escape, a second pass with nothing changed does not analyse again and shows the same panel, whatever the model would now reply |
| Dashboard.EscapedPassIsRetried | main.py:107-143 | a pass whose analysis escapes stores nothing and shows nothing, and the next pass analyses again |
| Dashboard.ReselectSameArticle | main.py:226-243 | selecting the same card again does not call the model, even after a failure caught by the `try`; only after an escaping raise does it analyse again |
| Dashboard.SelectOtherArticle | main.py:238-243 | selecting an article with a different link analyses it and shows only the new result, or stores and shows nothing if the analysis escapes |
| Dashboard.ReturningToEarlierArticleReanalyses | main.py:238-241 | the cache holds one result: after A then B, selecting A again analyses it again; only when B's pass escaped does A's result remain and no new call is made |
| Dashboard.RefetchKeepsEditor | main.py:200-243 | after a pass that did not escape, fetching news again keeps the editor showing the previous analysis without a new model call |
| Dashboard.MissingKeyShowsNothing | main.py:103-105 | with no key, a needed analysis stores `None` for the link and shows nothing |

## Left out

- Streamlit rendering, the CSS, columns, spinner, balloons and widgets (main.py:13-92, 173-289) are display only.
- The network fetch in `feedparser.parse` is an input: a function from URL to the parsed entry list. `st.cache_data(ttl=300)` is not modelled because it is wall-clock memoisation. The mapping from URL to entries is fixed, which matches repeated calls inside the TTL.
- Building `ChatGoogleGenerativeAI`, the model name, the temperature and the prompt text (main.py:107-150) are foreign library calls. Whether building raises is an input (`Analysis.Setup`), and so is the model's reply (`Analysis.Reply`). How Streamlit reports an escaping exception is not modelled.
- JSON numbers are mathematical integers and reals (`Json.JsonValue`). Python's `NaN`, `Infinity` and `-Infinity`, which `json.loads` accepts, and double-precision rounding are not represented. No proved property depends on number values.
- The decoding inside `json.loads` is a library parser. It is an uninterpreted `Parser` that returns an object or fails. Valid JSON text that starts with `{` is always an object, so no other result type is needed.
- The `auto_process` checkbox (main.py:180) is declared but never read.
- The publish form's edits, the platform multiselect and the success message (main.py:266-287) are a display side effect with no logic.
- Display.Present: it keeps each shown field as the stored JSON value. It does not model how Streamlit turns a non-string value into text, including the `%` appended to the score.
- How the news server reads the query string is not modelled. A topic holding `&` or `#` ends the `q` parameter early or starts a fragment (`Feed.ReservedCharactersUnescaped`). `Feed.TopicOfUrl` only strips the fixed prefix and suffix and decodes `%20`.
- Feed.FetchFeed: it does not model a feed failure. `feedparser` reports a failure as an empty or partial entry list, and that list is the input here.

=== FILE: analysis.dfy ===
/** `analyze_and_generate`: the credential guard, building the client and the
    prompt template, one model call, and the extraction of its reply. The hosted
    model and the prompt it is sent are outside the model; whether building
    succeeds and what the call returns are inputs. */
module Analysis {
  import opened Wrappers
  import opened Json
  import opened Extraction

  /** Building `ChatGoogleGenerativeAI` and `PromptTemplate`, which happens
      before the `try`: it succeeds, or it raises. */
  datatype Setup = Built | SetupRaised(message: string)

  /** What `llm.invoke` does: answer with some text, or raise. */
  datatype Reply = Answered(content: string) | Raised(message: string)

  /** How one analysis ends. `Escaped` is a raise outside the `try`: the
      function does not return and the exception leaves it. Every other ending
      but `Extracted(Decoded(_))` makes the function return `None`. */
  datatype Outcome =
    | MissingKey
    | Escaped(message: string)
    | InvokeFailed(message: string)
    | Extracted(extraction: Extraction)

  /** One analysis: an empty key stops before anything is built or called; a
      failure to build escapes; otherwise the reply is either an error caught
      by the `try` or text to extract from. */
  function Analyze(key: string, setup: Setup, reply: Reply, parse: Parser): (r: Outcome)
    ensures r.MissingKey? <==> |key| == 0
    ensures r.Escaped? <==> |key| > 0 && setup.SetupRaised?
    ensures r.InvokeFailed? <==> |key| > 0 && setup.Built? && reply.Raised?
    ensures r.Extracted? ==> setup.Built? && reply.Answered? && r.extraction == ExtractJson(reply.content, parse)
  {
    if |key| == 0 then MissingKey
    else if setup.SetupRaised? then Escaped(setup.message)
    else match reply
      case Raised(msg) => InvokeFailed(msg)
      case Answered(content) => Extracted(ExtractJson(content, parse))
  }

  /** The function's return value, when it returns: the decoded object, or
      `None`. */
  function ResultOf(o: Outcome): (r: Option<JsonObject>)
    requires !o.Escaped?
    ensures r.Some? <==> o.Extracted? && o.extraction.Decoded?
    ensures r.Some? ==> r.value == o.extraction.obj
  {
    match o
    case Extracted(Decoded(obj)) => Some(obj)
    case _ => None
  }

  /** The guard precedes everything: with an empty key the outcome is the same
      whatever the model would have said and whatever the decoder does. */
  lemma EmptyKeyCallsNothing(key: string, s1: Setup, s2: Setup, r1: Reply, r2: Reply, p1: Parser, p2: Parser)
    requires |key| == 0
    ensures Analyze(key, s1, r1, p1) == Analyze(key, s2, r2, p2) == MissingKey
    ensures ResultOf(Analyze(key, s1, r1, p1)).None?
  {
  }

  /** A reply without any `{` yields `None` and never reaches the decoder. */
  lemma NoBraceYieldsNone(key: string, content: string, p1: Parser, p2: Parser)
    requires |key| > 0 && '{' !in content
    ensures Analyze(key, Built, Answered(content), p1) == Analyze(key, Built, Answered(content), p2)
    ensures Analyze(key, Built, Answered(content), p1) == Extracted(NoJsonFound)
    ensures ResultOf(Analyze(key, Built, Answered(content), p1)).None?
  {
  }

  /** When the function returns, it returns an object exactly when the key is
      set, the model answers, the answer has a `{...}` span and that span
      decodes. */
  lemma SuccessCharacterized(key: string, setup: Setup, reply: Reply, parse: Parser)
    requires !Analyze(key, setup, reply, parse).Escaped?
    ensures ResultOf(Analyze(key, setup, reply, parse)).Some? <==>
      && |key| > 0
      && reply.Answered?
      && JsonCandidate(reply.content).Some?
      && parse(JsonCandidate(reply.content).value).Some?
    ensures |key| > 0 && reply.Answered? && JsonCandidate(reply.content).Some? ==>
      ResultOf(Analyze(key, setup, reply, parse)) == parse(JsonCandidate(reply.content).value)
  {
  }
}

=== FILE: dashboard.dfy ===
/** The page script's use of the session: `articles`, `active_article`,
    `current_analysis` and `current_url`. Each Streamlit rerun runs the editor
    pass below; button clicks change the session and trigger a rerun. */
module Dashboard {
  import opened Wrappers
  import opened Json
  import Feed
  import opened Analysis
  import opened Display

  /** The session fields the page reads and writes. `analysis` is the
      `current_analysis` key: outer `None` when the key is absent, `Some(None)`
      when a failed analysis stored `None` under it. */
  datatype Session = Session(
    articles: Option<seq<Feed.Entry>>,
    active: Option<Feed.Entry>,
    analysis: Option<Option<JsonObject>>,
    currentUrl: Option<string>)

  /** What the environment of one analysis supplies: the configured key,
      whether building the client and template succeeds, what the model
      replies and how the decoder behaves. */
  datatype Env = Env(key: string, setup: Setup, reply: Reply, parse: Parser)

  function Run(env: Env): Outcome
  {
    Analyze(env.key, env.setup, env.reply, env.parse)
  }

  /** The cache rule: analyse unless a result is stored for this very link. */
  predicate NeedsAnalysis(s: Session, link: string)
  {
    s.analysis.None? || s.currentUrl != Some(link)
  }

  /** The "Fetch News" button: store the fetched entries. Nothing else in the
      session is touched, so a selected article and its analysis stay. */
  function FetchNews(s: Session, topic: string, parse: string -> seq<Feed.Entry>): (r: Session)
    ensures r.articles == Some(Feed.FetchFeed(topic, parse))
    ensures |r.articles.value| <= Feed.MaxEntries
    ensures |r.articles.value| == if |parse(Feed.QueryUrl(topic))| <= Feed.MaxEntries then |parse(Feed.QueryUrl(topic))| else Feed.MaxEntries
    ensures r.articles.value <= parse(Feed.QueryUrl(topic))
    ensures r.active == s.active && r.analysis == s.analysis && r.currentUrl == s.currentUrl
  {
    s.(articles := Some(Feed.FetchFeed(topic, parse)))
  }

  /** The "Analyze" button of the card at position `i`. */
  function SelectArticle(s: Session, i: nat): (r: Session)
    requires s.articles.Some? && i < |s.articles.value|
    ensures r.active == Some(s.articles.value[i])
    ensures r.articles == s.articles && r.analysis == s.analysis && r.currentUrl == s.currentUrl
  {
    s.(active := Some(s.articles.value[i]))
  }

  /** The outcome of one editor pass: the session after it, whether the
      analysis ran, and what the editor shows. */
  datatype Pass = Pass(session: Session, analysed: bool, shown: Option<Panel>)

  /** The pass reaches the analysis and the analysis raises outside its `try`. */
  predicate Escapes(s: Session, env: Env)
  {
    s.articles.Some? && s.active.Some? && NeedsAnalysis(s, s.active.value.link) && Run(env).Escaped?
  }

  /** The editor section of one rerun. It runs only when articles are loaded
      and one is active; it analyses when `NeedsAnalysis` holds, stores the
      result (even `None`) with the article's link, and shows what is stored.
      A raise that escapes the analysis ends the rerun before anything is
      stored or shown. */
  function EditorPass(s: Session, env: Env): (r: Pass)
    ensures r.analysed <==> s.articles.Some? && s.active.Some? && NeedsAnalysis(s, s.active.value.link)
    ensures r.session.articles == s.articles && r.session.active == s.active
    ensures !r.analysed ==> r.session == s
    ensures Escapes(s, env) ==> r.session == s && r.shown.None?
    ensures r.analysed && !Escapes(s, env) ==> r.session.analysis == Some(ResultOf(Run(env)))
    ensures s.articles.Some? && s.active.Some? && !Escapes(s, env) ==>
      && r.session.currentUrl == Some(s.active.value.link)
      && r.session.analysis.Some?
      && r.shown == Present(r.session.analysis.value)
    ensures s.articles.None? || s.active.None? ==> r.shown.None?
  {
    if s.articles.None? || s.active.None? then Pass(s, false, None)
    else
      var link := s.active.value.link;
      if NeedsAnalysis(s, link) then
        var outcome := Run(env);
        if outcome.Escaped? then Pass(s, true, None)
        else
          var result := ResultOf(outcome);
          var s' := s.(analysis := Some(result), currentUrl := Some(link));
          Pass(s', true, Present(result))
      else
        Pass(s, false, Present(s.analysis.value))
  }

  /** After a pass that did not escape, a second pass with nothing changed in
      between does not analyse again, whatever the model would now reply, and
      shows the same. */
  lemma SecondPassUsesCache(s: Session, e1: Env, e2: Env)
    requires s.articles.Some? && s.active.Some?
    ensures var p1 := EditorPass(s, e1); var p2 := EditorPass(p1.session, e2);
      !Escapes(s, e1) ==> !p2.analysed && p2.session == p1.session && p2.shown == p1.shown
  {
  }

  /** A pass whose analysis escapes leaves the session as it was and shows
      nothing, so the next pass analyses again. */
  lemma EscapedPassIsRetried(s: Session, e1: Env, e2: Env)
    requires Escapes(s, e1)
    ensures var p1 := EditorPass(s, e1); var p2 := EditorPass(p1.session, e2);
      p1.session == s && p1.shown.None? && p2.analysed
  {
  }

  /** Selecting the same article again (same card, same feed) does not call
      the model again; this holds even when the first analysis failed and
      stored `None`, so a failure caught by the `try` is not retried by
      reselecting. Only a raise that escaped is retried. */
  lemma ReselectSameArticle(s: Session, i: nat, e1: Env, e2: Env)
    requires s.articles.Some? && i < |s.articles.value|
    ensures var s1 := SelectArticle(s, i);
      var p1 := EditorPass(s1, e1);
      var p2 := EditorPass(SelectArticle(p1.session, i), e2);
      && (!Escapes(s1, e1) ==> !p2.analysed && p2.shown == p1.shown)
      && (Escapes(s1, e1) ==> p2.analysed)
  {
  }

  /** Selecting an article whose link differs from the cached one analyses it
      afresh and shows only the new result. */
  lemma SelectOtherArticle(s: Session, j: nat, env: Env)
    requires s.articles.Some? && j < |s.articles.value|
    requires s.currentUrl != Some(s.articles.value[j].link)
    ensures var p := EditorPass(SelectArticle(s, j), env);
      && p.analysed
      && (!Run(env).Escaped? ==>
            && p.session.currentUrl == Some(s.articles.value[j].link)
            && p.shown == Present(ResultOf(Run(env))))
      && (Run(env).Escaped? ==> p.session == SelectArticle(s, j) && p.shown.None?)
  {
  }

  /** The cache holds one result: going A, then B, then back to A analyses A
      again. Only if the pass for B escaped is A's result still in place. */
  lemma ReturningToEarlierArticleReanalyses(s: Session, i: nat, j: nat, e1: Env, e2: Env, e3: Env)
    requires s.articles.Some? && i < |s.articles.value| && j < |s.articles.value|
    requires s.articles.value[i].link != s.articles.value[j].link
    ensures var sa := SelectArticle(s, i);
      var p1 := EditorPass(sa, e1);
      var sb := SelectArticle(p1.session, j);
      var p2 := EditorPass(sb, e2);
      var p3 := EditorPass(SelectArticle(p2.session, i), e3);
      !Escapes(sa, e1) ==>
        && p2.analysed
        && (!Escapes(sb, e2) ==> p3.analysed)
        && (Escapes(sb, e2) ==> !p3.analysed)
  {
    var sa := SelectArticle(s, i);
    var p1 := EditorPass(sa, e1);
    if !Escapes(sa, e1) {
      var sb := SelectArticle(p1.session, j);
      assert sb.currentUrl == Some(s.articles.value[i].link);
      var p2 := EditorPass(sb, e2);
      if !Escapes(sb, e2) {
        assert p2.session.currentUrl == Some(s.articles.value[j].link);
      }
    }
  }

  /** Fetching a new feed keeps the selected article and its stored analysis:
      the next pass shows the same panel without calling the model. */
  lemma RefetchKeepsEditor(s: Session, e1: Env, topic: string, parse: string -> seq<Feed.Entry>, e2: Env)
    requires s.articles.Some? && s.active.Some?
    ensures var p1 := EditorPass(s, e1);
      var p2 := EditorPass(FetchNews(p1.session, topic, parse), e2);
      !Escapes(s, e1) ==> !p2.analysed && p2.shown == p1.shown
  {
  }

  /** With no key the editor still records the link, stores `None` and shows
      nothing. */
  lemma MissingKeyShowsNothing(s: Session, env: Env)
    requires s.articles.Some? && s.active.Some? && NeedsAnalysis(s, s.active.value.link)
    requires |env.key| == 0
    ensures var p := EditorPass(s, env);
      p.analysed && p.session.analysis == Some(None) && p.shown.None?
  {
  }
}

=== FILE: display.dfy ===
/** How the editor shows a stored analysis: `dict.get` defaults for missing
    fields and the three-way sentiment colour. */
module Display {
  import opened Wrappers
  import opened Json

  datatype Colour = Green | Red | Yellow

  /** The CSS colour written into the sentiment badge. */
  function Hex(c: Colour): (r: string)
    ensures |r| == 7 && r[0] == '#'
  {
    match c
    case Green => "#00ff00"
    case Red => "#ff0000"
    case Yellow => "#ffff00"
  }

  const Positive: JsonValue := JString("Positive")
  const Negative: JsonValue := JString("Negative")

  /** Shown when the reply has no `sentiment` field. */
  const DefaultSentiment: JsonValue := JString("Neutral")

  /** Python's `data.get(key, default)`. */
  function Get(data: JsonObject, key: string, default: JsonValue): JsonValue
  {
    if key in data then data[key] else default
  }

  /** Green for exactly the string `Positive`, red for exactly `Negative`,
      yellow for everything else (other strings, numbers, null, ...). */
  function SentimentColour(sentiment: JsonValue): (c: Colour)
    ensures c == Green <==> sentiment == Positive
    ensures c == Red <==> sentiment == Negative
    ensures c == Yellow <==> sentiment != Positive && sentiment != Negative
  {
    if sentiment == Positive then Green
    else if sentiment == Negative then Red
    else Yellow
  }

  /** Everything the editor shows for one analysis: the four insight cells and
      the initial text of the two draft boxes. */
  datatype Panel = Panel(
    category: JsonValue,
    sentiment: JsonValue,
    colour: Colour,
    colourCss: string,
    truthScore: JsonValue,
    reason: JsonValue,
    blogDraft: JsonValue,
    socialDraft: JsonValue)

  /** `if data:` followed by the insight cells and the form. A missing or
      empty result shows nothing; each missing field falls back to its own
      default. */
  function Present(data: Option<JsonObject>): (r: Option<Panel>)
    ensures r.Some? <==> data.Some? && data.value != map[]
    ensures r.Some? ==> r.value.colour == SentimentColour(r.value.sentiment)
    ensures r.Some? ==> (r.value.colourCss ==
      if r.value.sentiment == Positive then "#00ff00"
      else if r.value.sentiment == Negative then "#ff0000"
      else "#ffff00")
    ensures r.Some? ==> r.value.sentiment == if "sentiment" in data.value then data.value["sentiment"] else DefaultSentiment
    ensures r.Some? ==> r.value.category == if "category" in data.value then data.value["category"] else JString("N/A")
    ensures r.Some? ==> r.value.truthScore == if "truth_score" in data.value then data.value["truth_score"] else JInt(0)
    ensures r.Some? ==> r.value.reason == if "fact_check_reason" in data.value then data.value["fact_check_reason"] else JString("No data")
    ensures r.Some? ==> r.value.blogDraft == if "blog_draft" in data.value then data.value["blog_draft"] else JString("")
    ensures r.Some? ==> r.value.socialDraft == if "social_draft" in data.value then data.value["social_draft"] else JString("")
  {
    match data
    case None => None
    case Some(obj) =>
      if obj == map[] then None
      else
        var sentiment := Get(obj, "sentiment", DefaultSentiment);
        Some(Panel(
          Get(obj, "category", JString("N/A")),
          sentiment,
          SentimentColour(sentiment),
          Hex(SentimentColour(sentiment)),
          Get(obj, "truth_score", JInt(0)),
          Get(obj, "fact_check_reason", JString("No data")),
          Get(obj, "blog_draft", JString("")),
          Get(obj, "social_draft", JString(""))))
  }

  /** A reply without a sentiment field is shown as `Neutral`, in yellow. */
  lemma MissingSentimentIsNeutralYellow(obj: JsonObject)
    requires obj != map[] && "sentiment" !in obj
    ensures Present(Some(obj)).value.sentiment == JString("Neutral")
    ensures Present(Some(obj)).value.colour == Yellow
    ensures Present(Some(obj)).value.colourCss == "#ffff00"
  {
  }

  /** An object with none of the six fields still shows the panel, filled
      entirely with defaults. */
  lemma AllDefaults(obj: JsonObject)
    requires obj != map[]
    requires forall k :: k in obj ==> k !in ["category", "sentiment", "truth_score", "fact_check_reason", "blog_draft", "social_draft"]
    ensures Present(Some(obj)) == Some(Panel(JString("N/A"), JString("Neutral"), Yellow, "#ffff00", JInt(0), JString("No data"), JString(""), JString("")))
  {
  }
}

=== FILE: extraction.dfy ===
/** The response extractor of `analyze_and_generate`: the pattern `\{.*\}` with
    DOTALL, searched in the model's raw reply, then the matched text handed to
    the JSON decoder. */
module Extraction {
  import opened Wrappers
  import opened Json

  /** A half-open span `[start, stop)` of the raw text. */
  datatype Span = Span(start: nat, stop: nat)

  /** `[i, j)` is a match of `\{.*\}` in `content`: it opens with `{`, closes
      with `}`, and `.` (DOTALL) accepts everything between, newlines included. */
  ghost predicate SpanMatches(content: string, i: int, j: int)
  {
    0 <= i && i + 2 <= j <= |content| && content[i] == '{' && content[j - 1] == '}'
  }

  /** `re.search` semantics: the match with the leftmost start, and from that
      start the longest one (`.*` is greedy). */
  ghost predicate LeftmostGreedy(content: string, i: int, j: int)
  {
    && SpanMatches(content, i, j)
    && (forall i', j' :: i' < i ==> !SpanMatches(content, i', j'))
    && (forall j' :: j < j' ==> !SpanMatches(content, i, j'))
  }

  ghost predicate NoMatch(content: string)
  {
    forall i, j :: !SpanMatches(content, i, j)
  }

  /** The first position holding `c`; for `{` it is where the leftmost match
      starts. */
  function FirstIndexOf(s: string, c: char): (r: Option<nat>)
    ensures r.Some? ==> r.value < |s| && s[r.value] == c
    ensures r.Some? ==> forall k :: 0 <= k < r.value ==> s[k] != c
    ensures r.None? ==> c !in s
    decreases |s|
  {
    if |s| == 0 then None
    else if s[0] == c then Some(0)
    else match FirstIndexOf(s[1..], c)
      case None => None
      case Some(k) => Some(k + 1)
  }

  /** The last position holding `c`; for `}` it is where the greedy match
      ends. */
  function LastIndexOf(s: string, c: char): (r: Option<nat>)
    ensures r.Some? ==> r.value < |s| && s[r.value] == c
    ensures r.Some? ==> forall k :: r.value < k < |s| ==> s[k] != c
    ensures r.None? ==> c !in s
    decreases |s|
  {
    if |s| == 0 then None
    else if s[|s| - 1] == c then Some(|s| - 1)
    else LastIndexOf(s[..|s| - 1], c)
  }

  /** The span the search selects: from the first `{` through the last `}`,
      provided that `}` comes after that `{`. */
  function BraceSpan(content: string): (r: Option<Span>)
    ensures r.Some? ==> LeftmostGreedy(content, r.value.start, r.value.stop)
    ensures r.None? <==> NoMatch(content)
  {
    match (FirstIndexOf(content, '{'), LastIndexOf(content, '}'))
    case (Some(i), Some(k)) =>
      if i < k then Some(Span(i, k + 1))
      else
        assert NoMatch(content);
        None
    case _ => None
  }

  /** The leftmost-greedy match is unique. */
  lemma LeftmostGreedyUnique(content: string, i: int, j: int, i': int, j': int)
    requires LeftmostGreedy(content, i, j) && LeftmostGreedy(content, i', j')
    ensures i == i' && j == j'
  {
  }

  /** The regular-expression engine's own search: try each start from the
      left; at a `{`, let `.*` take the rest of the text and back off one
      character at a time until a `}` closes the match. */
  method RegexSearch(content: string) returns (r: Option<Span>)
    ensures r.Some? ==> LeftmostGreedy(content, r.value.start, r.value.stop)
    ensures r.None? ==> NoMatch(content)
    ensures r == BraceSpan(content)
  {
    r := None;
    var i := 0;
    while i < |content|
      invariant 0 <= i <= |content|
      invariant forall i', j' :: i' < i ==> !SpanMatches(content, i', j')
    {
      if content[i] == '{' {
        var j := |content|;
        while j >= i + 2
          invariant i + 1 <= j <= |content|
          invariant forall j' :: j < j' ==> !SpanMatches(content, i, j')
        {
          if content[j - 1] == '}' {
            r := Some(Span(i, j));
            var b := BraceSpan(content);
            LeftmostGreedyUnique(content, i, j, b.value.start, b.value.stop);
            return;
          }
          j := j - 1;
        }
      }
      i := i + 1;
    }
  }

  /** `match.group(0)`: the text the search selects, if any. */
  function JsonCandidate(content: string): (r: Option<string>)
    ensures r.None? <==> NoMatch(content)
    ensures r.Some? ==> |r.value| >= 2 && r.value[0] == '{' && r.value[|r.value| - 1] == '}'
  {
    match BraceSpan(content)
    case None => None
    case Some(sp) => Some(content[sp.start..sp.stop])
  }

  /** The candidate sits in the raw text with no `{` before it and no `}`
      after it. */
  lemma CandidateDecomposition(content: string)
    requires JsonCandidate(content).Some?
    ensures var sp, t := BraceSpan(content).value, JsonCandidate(content).value;
      && content == content[..sp.start] + t + content[sp.stop..]
      && '{' !in content[..sp.start]
      && '}' !in content[sp.stop..]
  {
    var i, k := FirstIndexOf(content, '{').value, LastIndexOf(content, '}').value;
    assert BraceSpan(content).value == Span(i, k + 1);
    assert content == content[..i] + content[i..k + 1] + content[k + 1..];
    AbsentFromPrefix(content, '{', i);
    AbsentFromSuffix(content, '}', k + 1);
  }

  lemma AbsentFromPrefix(s: string, c: char, i: nat)
    requires i <= |s| && forall m :: 0 <= m < i ==> s[m] != c
    ensures c !in s[..i]
  {
    forall m | 0 <= m < i ensures s[..i][m] != c {
      assert s[..i][m] == s[m];
    }
  }

  lemma AbsentFromSuffix(s: string, c: char, j: nat)
    requires j <= |s| && forall m :: j <= m < |s| ==> s[m] != c
    ensures c !in s[j..]
  {
    forall m | 0 <= m < |s| - j ensures s[j..][m] != c {
      assert s[j..][m] == s[j + m];
    }
  }

  /** Conversely, a text surrounded by prose with no `{` before it and no `}`
      after it is exactly what the search selects, whatever braces and newlines
      it holds inside. */
  lemma CandidateIsolated(pre: string, t: string, post: string)
    requires '{' !in pre && '}' !in post
    requires |t| >= 2 && t[0] == '{' && t[|t| - 1] == '}'
    ensures JsonCandidate(pre + t + post) == Some(t)
  {
    var content := pre + t + post;
    var i, j := |pre|, |pre| + |t|;
    assert content[i] == '{' && content[j - 1] == '}';
    forall i', j' | i' < i ensures !SpanMatches(content, i', j') {
      if 0 <= i' { assert content[i'] == pre[i']; }
    }
    forall j' | j < j' ensures !SpanMatches(content, i, j') {
      if j' <= |content| { assert content[j' - 1] == post[j' - 1 - j]; }
    }
    var sp := BraceSpan(content).value;
    LeftmostGreedyUnique(content, i, j, sp.start, sp.stop);
    assert content[i..j] == t;
  }

  /** Prose that itself holds a `{` before the JSON object widens the
      candidate: it then starts at that prose brace. */
  lemma ProseBraceWidensCandidate()
    ensures var t := "{x}: {\"a\":1}";
      JsonCandidate("Use " + t) == Some(t)
  {
    CandidateIsolated("Use ", "{x}: {\"a\":1}", "");
    assert "Use " + "{x}: {\"a\":1}" + "" == "Use " + "{x}: {\"a\":1}";
  }

  /** A typical chatty reply: the object text between the greeting and the
      sign-off is exactly what reaches the decoder. */
  lemma ChattyReplyCandidate()
    ensures var obj := "{\"category\":\"Technology\",\"truth_score\":90}";
      JsonCandidate("Sure! " + obj + " Hope that helps.") == Some(obj)
  {
    CandidateIsolated("Sure! ", "{\"category\":\"Technology\",\"truth_score\":90}", " Hope that helps.");
  }

  /** What the extraction step yields: no match (the error branch, which shows
      the raw text), a candidate the decoder rejects, or the decoded object. */
  datatype Extraction = NoJsonFound | Malformed(candidate: string) | Decoded(obj: JsonObject)

  /** The `if match:` branch: decode the candidate, or report that the reply
      holds no `{...}` at all. */
  function ExtractJson(content: string, parse: Parser): (r: Extraction)
    ensures r.NoJsonFound? <==> NoMatch(content)
    ensures r.Malformed? ==> JsonCandidate(content) == Some(r.candidate) && parse(r.candidate).None?
    ensures r.Decoded? ==> JsonCandidate(content).Some? && parse(JsonCandidate(content).value) == Some(r.obj)
  {
    match JsonCandidate(content)
    case None => NoJsonFound
    case Some(t) =>
      match parse(t)
      case None => Malformed(t)
      case Some(obj) => Decoded(obj)
  }

  /** When there is no `{`, or no `}` after the first `{`, the decoder is
      never consulted: the outcome is the same whichever decoder is supplied. */
  lemma NoMatchSkipsParser(content: string, p1: Parser, p2: Parser)
    requires || '{' !in content
             || (FirstIndexOf(content, '{').Some? && '}' !in content[FirstIndexOf(content, '{').value..])
    ensures ExtractJson(content, p1) == ExtractJson(content, p2) == NoJsonFound
  {
    if '{' in content {
      var f := FirstIndexOf(content, '{').value;
      forall i, j ensures !SpanMatches(content, i, j) {
        if 0 <= i && i + 2 <= j <= |content| && content[i] == '{' {
          assert f <= i < j - 1;
          assert content[j - 1] == content[f..][j - 1 - f];
        }
      }
    }
  }

  /** A well-formed reply wrapped in chatter is decoded from exactly the
      embedded object text. */
  lemma WrappedObjectDecoded(pre: string, t: string, post: string, parse: Parser)
    requires '{' !in pre && '}' !in post
    requires |t| >= 2 && t[0] == '{' && t[|t| - 1] == '}'
    requires parse(t).Some?
    ensures ExtractJson(pre + t + post, parse) == Decoded(parse(t).value)
  {
    CandidateIsolated(pre, t, post);
  }
}

=== FILE: feed.dfy ===
/** The feed fetcher of main.py: a topic becomes a Google News RSS search URL in
    which every space is written `%20`, and at most six parsed entries are kept. */
module Feed {
  import opened Wrappers

  /** One parsed feed entry; `source` is the entry's `source.title`. */
  datatype Entry = Entry(title: string, source: string, published: string, link: string, summary: string)

  const QueryPrefix: string := "https://news.google.com/rss/search?q="
  const QuerySuffix: string := "&hl=en-US&gl=US&ceid=US:en"

  /** The number of entries `fetch_feed` keeps. */
  const MaxEntries: nat := 6

  /** The text one topic character becomes in the query. */
  function Encode(c: char): (r: string)
    ensures c == ' ' ==> r == "%20"
    ensures c != ' ' ==> r == [c]
  {
    if c == ' ' then "%20" else [c]
  }

  /** `topic.replace(" ", "%20")`: each space becomes the three characters
      `%20`, every other character is kept, so the result holds no space and
      grows by two per space. */
  function FormatTopic(topic: string): (r: string)
    ensures ' ' !in r
    decreases |topic|
  {
    if |topic| == 0 then ""
    else Encode(topic[0]) + FormatTopic(topic[1..])
  }

  /** A topic without spaces is sent as it is. */
  lemma {:induction false} FormatIdentity(topic: string)
    requires ' ' !in topic
    ensures FormatTopic(topic) == topic
    decreases |topic|
  {
    if |topic| > 0 {
      assert topic == [topic[0]] + topic[1..];
      assert ' ' !in topic[1..];
      FormatIdentity(topic[1..]);
    }
  }

  /** Each space adds exactly two characters. */
  lemma {:induction false} FormatLength(topic: string)
    ensures |FormatTopic(topic)| == |topic| + 2 * multiset(topic)[' ']
    decreases |topic|
  {
    if |topic| > 0 {
      assert topic == [topic[0]] + topic[1..];
      FormatLength(topic[1..]);
    }
  }

  /** Formatting works character by character: it distributes over concatenation. */
  lemma {:induction false} FormatConcat(a: string, b: string)
    ensures FormatTopic(a + b) == FormatTopic(a) + FormatTopic(b)
    decreases |a|
  {
    if |a| == 0 {
      assert a + b == b;
    } else {
      assert (a + b)[0] == a[0];
      assert (a + b)[1..] == a[1..] + b;
      FormatConcat(a[1..], b);
    }
  }

  /** Every character keeps its place in order: whatever surrounds it, a
      character `c` appears as `Encode(c)` right after the formatted text before
      it, which is two characters longer per earlier space. */
  lemma FormatPositions(pre: string, c: char, rest: string)
    ensures var q, at := FormatTopic(pre + ([c] + rest)), |pre| + 2 * multiset(pre)[' '];
      at + |Encode(c)| <= |q| && q[at..at + |Encode(c)|] == Encode(c)
  {
    FormatSplit(pre, c, rest);
    FormatLength(pre);
    SliceMiddle(FormatTopic(pre), Encode(c), FormatTopic(rest));
  }

  /** The formatted form of `pre + [c] + rest`, taken apart. */
  lemma FormatSplit(pre: string, c: char, rest: string)
    ensures FormatTopic(pre + ([c] + rest)) == FormatTopic(pre) + (Encode(c) + FormatTopic(rest))
  {
    FormatConcat(pre, [c] + rest);
    assert ([c] + rest)[1..] == rest;
  }

  lemma SliceMiddle<T>(a: seq<T>, e: seq<T>, b: seq<T>)
    ensures (a + (e + b))[|a|..|a| + |e|] == e
  {
  }

  /** The three parts of `a + b + c` can be sliced back out. */
  lemma SliceThree<T>(a: seq<T>, b: seq<T>, c: seq<T>)
    ensures |a + b + c| == |a| + |b| + |c|
    ensures (a + b + c)[..|a|] == a
    ensures (a + b + c)[|a + b + c| - |c|..] == c
    ensures (a + b + c)[|a|..|a + b + c| - |c|] == b
  {
    var w := a + b + c;
    assert w[..|a|] == a;
    assert w[|a| + |b|..] == c;
    assert w[|a|..|a| + |b|] == b;
  }

  /** Reads a formatted topic back: `%20` becomes a space again. */
  function Unformat(q: string): string
    decreases |q|
  {
    if |q| == 0 then ""
    else if |q| >= 3 && q[..3] == "%20" then " " + Unformat(q[3..])
    else [q[0]] + Unformat(q[1..])
  }

  /** Formatting loses nothing for a topic without `%`: reading it back gives
      the topic again. */
  lemma {:induction false} UnformatFormat(topic: string)
    requires '%' !in topic
    ensures Unformat(FormatTopic(topic)) == topic
    decreases |topic|
  {
    if |topic| > 0 {
      var rest := topic[1..];
      assert '%' !in rest by {
        assert forall k :: 0 <= k < |rest| ==> rest[k] == topic[k + 1];
      }
      UnformatFormat(rest);
      var q := FormatTopic(topic);
      assert q == Encode(topic[0]) + FormatTopic(rest);
      if topic[0] == ' ' {
        assert q[..3] == "%20" && q[3..] == FormatTopic(rest);
        assert Unformat(q) == " " + Unformat(FormatTopic(rest));
      } else {
        assert q[0] == topic[0] && q[1..] == FormatTopic(rest);
        assert !(|q| >= 3 && q[..3] == "%20") by { assert q[0] != '%'; }
        assert Unformat(q) == [topic[0]] + Unformat(FormatTopic(rest));
      }
      assert topic == [topic[0]] + rest;
    }
  }

  /** The transform only rewrites spaces, so a topic that already contains
      `%20` collides with one that has a space there. */
  lemma FormatNotInjective()
    ensures exists t1: string, t2: string :: t1 != t2 && FormatTopic(t1) == FormatTopic(t2)
  {
    var t1, t2 := " ", "%20";
    assert FormatTopic(t1) == "%20" by {
      assert t1[1..] == "";
    }
    assert FormatTopic(t2) == "%20" by {
      assert t2[1..] == "20";
      assert t2[1..][1..] == "0";
      assert t2[1..][1..][1..] == "";
    }
    assert t1 != t2 by { assert |t1| != |t2|; }
  }

  /** The RSS search URL built for a topic. */
  function QueryUrl(topic: string): (r: string)
    ensures ' ' !in r
    ensures |r| == |QueryPrefix| + |FormatTopic(topic)| + |QuerySuffix|
    ensures r[..|QueryPrefix|] == QueryPrefix
    ensures r[|r| - |QuerySuffix|..] == QuerySuffix
    ensures r[|QueryPrefix|..|r| - |QuerySuffix|] == FormatTopic(topic)
  {
    var q := FormatTopic(topic);
    SliceThree(QueryPrefix, q, QuerySuffix);
    FixedPartsHaveNoSpace();
    NoSpaceInThree(QueryPrefix, q, QuerySuffix);
    QueryPrefix + q + QuerySuffix
  }

  lemma FixedPartsHaveNoSpace()
    ensures ' ' !in QueryPrefix && ' ' !in QuerySuffix
  {
  }

  lemma NoSpaceInThree(a: string, b: string, c: string)
    requires ' ' !in a && ' ' !in b && ' ' !in c
    ensures ' ' !in a + b + c
  {
  }

  /** The text between the fixed prefix and the fixed suffix, with `%20`
      decoded back to a space, when the URL has that shape. This is not what a
      query-string reader sees: `&` and `#` in a topic are not escaped (see
      `ReservedCharactersUnescaped`). */
  function TopicOfUrl(url: string): Option<string>
  {
    if |url| >= |QueryPrefix| + |QuerySuffix|
       && url[..|QueryPrefix|] == QueryPrefix
       && url[|url| - |QuerySuffix|..] == QuerySuffix
    then Some(Unformat(url[|QueryPrefix|..|url| - |QuerySuffix|]))
    else None
  }

  /** For a topic without `%`, the text between the fixed prefix and suffix of
      its search URL, with `%20` decoded, is the topic again. */
  lemma QueryUrlRoundTrip(topic: string)
    requires '%' !in topic
    ensures TopicOfUrl(QueryUrl(topic)) == Some(topic)
  {
    UnformatFormat(topic);
  }

  /** Every character but the space passes into the URL as it is, so a topic
      holding `&` or `#` ends the `q` parameter early or starts a fragment. */
  lemma ReservedCharactersUnescaped()
    ensures QueryUrl("AT&T") == QueryPrefix + "AT&T" + QuerySuffix
    ensures QueryUrl("C#") == QueryPrefix + "C#" + QuerySuffix
  {
    FormatIdentity("AT&T");
    FormatIdentity("C#");
  }

  /** `fetch_feed(topic)`: the entries `parse` yields for the topic's URL,
      cut to the first six. */
  function FetchFeed(topic: string, parse: string -> seq<Entry>): (r: seq<Entry>)
    ensures |r| <= MaxEntries
    ensures |r| == if |parse(QueryUrl(topic))| <= MaxEntries then |parse(QueryUrl(topic))| else MaxEntries
    ensures r <= parse(QueryUrl(topic))
  {
    var entries := parse(QueryUrl(topic));
    if |entries| <= MaxEntries then entries else entries[..MaxEntries]
  }
}

=== FILE: json.dfy ===
/** JSON values, with numbers as mathematical values (no `NaN`, no
    infinities, no double rounding). The decoder itself is a
    library routine and is left uninterpreted: a `Parser` is any total function
    from text to an optional object, `None` standing for a raised decode error. */
module Json {
  import opened Wrappers

  datatype JsonValue =
    | JNull
    | JBool(b: bool)
    | JInt(i: int)
    | JFloat(f: real)
    | JString(s: string)
    | JArray(items: seq<JsonValue>)
    | JObject(fields: map<string, JsonValue>)

  /** A decoded JSON object (a Python `dict` with string keys). */
  type JsonObject = map<string, JsonValue>

  /** The decoder applied to a candidate text that begins with `{` and ends with
      `}`: when such a text decodes at all it decodes to an object. */
  type Parser = string -> Option<JsonObject>
}

=== FILE: wrappers.dfy ===
/** The optional value used wherever the dashboard returns `None` or reads a
    session key that may be absent. */
module Wrappers {

  datatype Option<+T> = None | Some(value: T)
}
